=== FILE: README.md ===
# Chat app message path, modelled in Dafny

This project models the deterministic core of a small web chat application
whose messages live in a DynamoDB table and whose AI replies come from the
Groq chat-completion API:

- the message-store adapter (`lib/dynamo.ts`): `addMessage` normalises a
  message's timestamp to an ISO string before the write; `getMessages`
  queries one conversation a page at a time, turns the string cursor into
  the query's start key and the store's continuation key back into a string,
  and re-sorts the page in place by parsed timestamp;
- the chat-reply adapter (`lib/groq.ts`): the API-key check, the role-tagged
  transcript (system instruction, one turn per history message, the user's
  turn), the formatted error for a non-OK answer and the trimmed first choice;
- the two Next.js route handlers `POST /api/messages/send-message` and
  `POST /api/messages/groq-response`, and the error classifier
  `handleError` (`lib/errorHandler.ts`);
- the legacy Lambda handler `aws/functions/sendMessage.js`.

Everything outside the program's own logic is a parameter. The document
store is a `Store` value holding the `DYNAMODB_MESSAGES_TABLE` setting, the outcome of a put and the
reply to a query. The completion endpoint is a function from the request to
its reply. `uuidv4()` and `Date.now()` are the `Env` of a request. The ISO
rendering and `Date` parsing are a `Dates` value on integer milliseconds,
assumed to round-trip (`IsoRoundTrips`). `JSON.stringify`/`JSON.parse` of the
store key are a `KeyJson` value, assumed to round-trip with non-empty text
(`KeyJsonRoundTrips`). Request bodies are parsed JSON values (`Js.JsValue`),
and thrown errors are the properties the handlers read from them
(`Js.ErrorInfo`). A handler's observable effect is its response plus the
items it handed to the store (`attempted`) and, for the AI route, the
completion request it issued (`sent`).

Modules: `Wrappers` (Option, Result), `Js` (truthiness, property reads,
template-literal conversion, `String.prototype.trim`), `ErrorHandler`,
`Dynamo`, `Groq`, `Routes` (what both Next.js routes share),
`SendMessageRoute`, `GroqResponseRoute`, `LambdaSendMessage`.

Four behaviours one might expect of these handlers do not hold in the code,
and the model follows the code:

- the send-message route answers success with status 200, the default of
  `NextResponse.json`, not 201 (only the Lambda answers 201);
- an OK completion answer without choices throws the `TypeError` of reading
  `message` of `undefined`; there is no dedicated upstream error for it;
- the send-message success response carries the message with its numeric
  timestamp, while the stored item carries the ISO rendering of that
  instant, so the two are not literally the same object;
- no field is ever trimmed before it is stored or answered:
  `conversationId` and `userMessage` are only checked for being non-empty
  strings, and `sender` and `message` of the send route are checked with
  `trim()` but stored and answered untrimmed.

## Model

| member | source | states |
|---|---|---|
| `Js.Prop` | app/api/messages/send-message/route.ts:10 | reading a property throws exactly on `null`/`undefined`, with a TypeError; an object yields its own field, or `undefined` when it lacks the key; any other value yields `undefined` |
| `Js.TrimBlankIffAllWhitespace` | app/api/messages/send-message/route.ts:14-20 | `s.trim().length === 0` exactly when every code point of `s` is ECMAScript whitespace |
| `Js.TrimmedHasNoEdgeWhitespace` | lib/groq.ts:81 | a trimmed string has no leading or trailing whitespace, is a contiguous piece of the input, and trimming it again changes nothing |
| `ErrorHandler.HandleError` | lib/errorHandler.ts:13-16 | `details` is always the error's `message`, whichever rule fired |
| `ErrorHandler.HandleErrorIsFirstMatch` | lib/errorHandler.ts:2-11 | the if/else-if chain equals reading the rule table (credentials name, table name, ENOTFOUND code) first-match, with the caller's default when no rule fires |
| `ErrorHandler.FirstMatchPicksEarliest` | lib/errorHandler.ts:5-10 | a rule table yields the text of its earliest firing rule |
| `ErrorHandler.FirstMatchDefault` | lib/errorHandler.ts:3 | a rule table with no firing rule yields the default message |
| `ErrorHandler.HandleErrorClassifies` | lib/errorHandler.ts:3-11 | credentials name gives the credentials text; table name gives the table text; ENOTFOUND gives the endpoint text with the hostname; otherwise exactly the default |
| `ErrorHandler.NameRuleBeatsCodeRule` | lib/errorHandler.ts:5-10 | a name match wins over an ENOTFOUND code on the same error |
| `ErrorHandler.ErrorTextIgnoresMessage` | lib/errorHandler.ts:13-16 | the user-facing text never depends on the message; the message passes through as `details` |
| `Dynamo.MessagesTable` | lib/dynamo.ts:34 | the table every put and query names (used by `AddMessage` and `GetMessages`) is never empty: the configured name when set and non-empty, else "ChatMessages" |
| `Dynamo.ToItem` | lib/dynamo.ts:40-52 | the stored item keeps id, conversation, sender and text; its timestamp is always a string: the ISO rendering of a number, a string unchanged, the current time for anything else (null, boolean, absent) |
| `Dynamo.AddMessage` | lib/dynamo.ts:37-59 | the write is of the normalised item to the configured table; it succeeds exactly when the store accepts it; a store failure is rethrown unchanged |
| `Dynamo.NormaliseIdempotent` | lib/dynamo.ts:40-44 | normalising an already normalised item changes nothing |
| `Dynamo.NormalisePreservesSortKey` | lib/dynamo.ts:83-89 | a stored number or string timestamp parses back to the same instant the original message sorts by; any other timestamp is stored, and sorts, as the time of the write |
| `Dynamo.SortByTimestamp` | lib/dynamo.ts:81-92 | the in-place sort leaves the array a permutation of the page, non-decreasing by parsed timestamp |
| `Dynamo.TimeOrderIsUnique` | lib/dynamo.ts:81-92 | with distinct timestamps, the same messages in time order form exactly one sequence, whatever order the store returned |
| `Dynamo.StartKey` | lib/dynamo.ts:70 | an absent or empty cursor starts from the beginning; otherwise it succeeds exactly when the cursor parses, the start key is the parsed cursor, and a parse failure is thrown unchanged |
| `Dynamo.QueryFor` | lib/dynamo.ts:63-72 | the query names the given table and the key condition `conversationId = :conversationId`, binds only `:conversationId` to the given id, ascending, limit 50, starting at the given key |
| `Dynamo.CursorOf` | lib/dynamo.ts:96 | the returned cursor is absent exactly when the store gave no continuation key |
| `Dynamo.CursorRoundTrip` | lib/dynamo.ts:70-96 | feeding the returned cursor back starts the next query at the store's continuation key |
| `Dynamo.GetMessages` | lib/dynamo.ts:62-102 | cursor and store failures are rethrown unchanged; on a page the items are a permutation of the page's items (empty when it has none), time-ordered (by `Number()` for non-strings) when no timestamp is absent or a list or map, queried on the configured table, with the encoded continuation key |
| `Groq.HistoryTurn` | lib/groq.ts:40-52 | a history entry becomes an assistant turn exactly when its sender is "Groq"; it is never a system turn; a null entry throws |
| `Groq.HistoryTurnOfChatMessage` | lib/groq.ts:41-50 | a "Groq" message gives an assistant turn with the raw text; any other sender gives a user turn "sender: message" |
| `Groq.TranscriptUnique` | lib/groq.ts:32-58 | the transcript (system turn, history turns in order, user turn) is fully determined by its inputs |
| `Groq.EmptyHistoryTranscript` | lib/groq.ts:25 | with the default empty history the transcript is exactly the system turn then the user turn |
| `Groq.BuildTranscript` | lib/groq.ts:32-58 | the pushes produce the transcript (length history + 2, system first, user last, one turn per entry in order) exactly when every entry is readable; otherwise the first unreadable entry's error |
| `Groq.UpstreamErrorText` | lib/groq.ts:77 | reading `error` of the error body throws exactly when the body is null |
| `Groq.ReplyOutcome` | lib/groq.ts:74-81 | a failed fetch is rethrown; an OK answer yields the trimmed first choice |
| `Groq.RejectedReplyMessage` | lib/groq.ts:74-78 | a non-OK answer throws "Groq API error: " plus the upstream `error.message`, or "Unknown error" when the body has no error |
| `Groq.ReplyIsTrimmed` | lib/groq.ts:80-81 | reply text never has leading or trailing whitespace |
| `Groq.GetGroqResponse` | lib/groq.ts:25-86 | without a key it throws "GROQ_API_KEY is not configured" and sends nothing; with a key it sends exactly when every history entry is readable, else throws the first unreadable entry's error; a sent request carries the bearer key, model, limit and the transcript; the result is the reply outcome of what was sent |
| `Routes.Status` | app/api/messages/send-message/route.ts:11-52 | 200 exactly for success; otherwise 400 or 500 |
| `Routes.NonBlankIffSomeVisibleChar` | app/api/messages/send-message/route.ts:14-20 | the sender/message guard passes exactly the strings with a non-whitespace code point |
| `SendMessageRoute.SendFailure` | app/api/messages/send-message/route.ts:39-52 | the catch block's body always carries the error's message as details |
| `SendMessageRoute.SendFailureIsHandleError` | app/api/messages/send-message/route.ts:39-52 | the inline chain classifies exactly as `handleError(error, "Failed to send message")` |
| `SendMessageRoute.Post` | app/api/messages/send-message/route.ts:5-53 | an unreadable or null body answers `handleError` of the thrown error with nothing written; any other non-object body (string, number, boolean, array) answers the `conversationId` 400; a 400 writes nothing; success follows a write the store accepted, of the normalised response message; a failed write answers the classified store error |
| `SendMessageRoute.ValidationOrder` | app/api/messages/send-message/route.ts:10-20 | conversationId, then sender, then message: each 400 fires exactly when its guard fails and all earlier guards passed |
| `SendMessageRoute.ValidRequestPersistsThenResponds` | app/api/messages/send-message/route.ts:23-34 | a valid request writes a message with the fresh id, the untrimmed fields and a numeric timestamp, and answers it exactly when the write succeeded, else the classified 500 |
| `SendMessageRoute.StoredItemMatchesResponse` | app/api/messages/send-message/route.ts:23-34 | the stored item is the response message with the same instant as an ISO string, parsing back to `Date.now()` |
| `SendMessageRoute.UnreadableBodyFails` | app/api/messages/send-message/route.ts:7-52 | a body that is not JSON, or is JSON null, answers 500 with `handleError(error, "Failed to send message")` of the parse error or of the TypeError of reading `conversationId` of null, the error's message as details, and writes nothing |
| `GroqResponseRoute.HistoryArg` | app/api/messages/groq-response/route.ts:21-24 | the reply builder gets `previousMessages` when it is an array, else an empty history |
| `GroqResponseRoute.AiMessageStoredAsIs` | app/api/messages/groq-response/route.ts:27-36 | the bot's message, with its string timestamp, is stored unchanged |
| `GroqResponseRoute.Post` | app/api/messages/groq-response/route.ts:7-51 | every outcome is fixed by its inputs: an unreadable or null body answers `handleError` of the thrown error; ordered 400s with no request and no write; a missing key answers 500 with nothing sent or written; with a key and a readable history the request is always sent, else the first unreadable entry's error is answered; a failed reply answers `handleError` of that reply's error with no write; a reply is written once as a "Groq" message to the configured table, and the route answers it exactly when the write succeeds, else `handleError` of the write's error, all with "Failed to get AI response or save it to database" |
| `LambdaSendMessage.Handler` | aws/functions/sendMessage.js:6-63 | every response has the two CORS headers; 400 and 500 bodies are fixed; a string, number, boolean or array body answers the 400; an object body with a truthy `message` and `sender` is always written once, and answers 201 exactly when that write succeeded; the 201 body carries the stored item's fields with numeric timestamp `Date.now()` |
| `LambdaSendMessage.ObjectBodyOutcome` | aws/functions/sendMessage.js:9-61 | 400 exactly when `message` or `sender` is falsy; otherwise the item is always written, carries the body's fields with an absent roomId read as 'default', and the answer is 201 exactly when the write succeeded |
| `LambdaSendMessage.BlankStringsPass` | aws/functions/sendMessage.js:11 | whitespace-only message and sender are accepted |
| `LambdaSendMessage.FailuresAnswer500` | aws/functions/sendMessage.js:52-61 | an unparsable or null body answers the fixed 500 and writes nothing |

## Left out

- The React UI, polling, optimistic updates, the axios proxies (`lib/aws.ts`, `app/api/messages/route.ts`) and the read-only Lambda `aws/functions/getMessages.js`: no logic of the message path lives there.
- The DynamoDB SDK, `fetch`, `uuid`, the clock, ISO formatting, `Date` parsing and JSON encoding: parameters with the stated round-trip assumptions. Unique ids are not modelled; the id is whatever the runtime supplies.
- Client configuration (region, credentials, endpoint) and logging with `console.error`: no effect on results.
- Floating point: JavaScript numbers are integers here; `temperature: 0.7` and the `Content-Type` header of the completion request are not modelled.
- `NaN`: `Dates.parse` is total on integers, so an unparsable date string is not modelled.
- Dynamo.GetMessages: when a page holds a message whose timestamp is absent (or a list or map attribute), `Number()` gives `NaN`, the comparator returns `NaN` and the sort order is implementation-defined; the model then promises only a permutation. A list or map whose `Number()` is not `NaN` (`[]` is 0, `[5]` is 5) is treated like an absent timestamp, so for such a page too only a permutation is promised.
- Dynamo.ToItem: `new Date(ms).toISOString()` throws a `RangeError` when the number is beyond the ECMAScript time range (more than 8.64e15 ms from the epoch), and `addMessage` would rethrow it; `Dates.toIso` is total, so the model always writes. No handler reaches this: the routes store `Date.now()` or an ISO string.
- Dynamo.SortByTimestamp: the stability of `Array.prototype.sort` is not stated; `TimeOrderIsUnique` covers pages with distinct timestamps.
- Dynamo.StartKey: a cursor that is valid JSON but not a store key is treated as a parse failure; the real store would reject the query instead.
- Groq.ReplyOutcome: the success body is taken as the `GroqResponse` shape that the code casts it to; a body without `choices` or with non-string content is not modelled.
- Js.Prop: array-index and built-in properties of primitives (such as `length`) are not modelled; no handler reads them.
- Js.Render: exponent notation for very large numbers and custom `toString` methods are not modelled.
- `TypeError` message texts follow V8's wording.
- Response bodies are the values handed to `JSON.stringify`; key order and serialisation are not modelled.

=== FILE: dynamo.dfy ===
/** The message-store adapter (lib/dynamo.ts): timestamp normalisation on
    write, and the paginated, re-sorted read of one conversation. The document
    store, the clock's ISO rendering, `Date` parsing and the JSON encoding of the
    continuation key are parameters. */
module Dynamo {
  import opened Wrappers
  import opened Js

  /** The runtime value of a message's `timestamp` field: a number (epoch
      milliseconds), a string, `null`, a boolean, or anything else (absent, or
      a list or map attribute, which `Number()` usually takes to `NaN`). */
  datatype Timestamp = NumTs(millis: int) | StrTs(text: string) | NullTs | BoolTs(b: bool) | NoTs

  datatype ChatMessage = ChatMessage(
    messageId: string,
    conversationId: string,
    sender: string,
    message: string,
    timestamp: Timestamp)

  /** `new Date(ms).toISOString()` and `new Date(s).getTime()` on integer
      milliseconds. */
  datatype Dates = Dates(toIso: int -> string, parse: string -> int)

  /** Parsing an ISO rendering gives back the instant it renders. */
  ghost predicate IsoRoundTrips(dates: Dates) {
    forall ms: int :: dates.parse(dates.toIso(ms)) == ms
  }

  const DefaultTable := "ChatMessages"
  const KeyCondition := "conversationId = :conversationId"
  const PageLimit: nat := 50

  /** `process.env.DYNAMODB_MESSAGES_TABLE || "ChatMessages"`. */
  function MessagesTable(env: Option<string>): (table: string)
    ensures table != ""
    ensures env.Some? && env.value != "" ==> table == env.value
    ensures env.None? || env.value == "" ==> table == DefaultTable
  {
    if env.Some? && env.value != "" then env.value else DefaultTable
  }

  datatype PutCommand = PutCommand(tableName: string, item: ChatMessage)

  /** A key attribute of the store (string or number). */
  datatype KeyAttr = S(s: string) | N(n: int)
  type StoreKey = map<string, KeyAttr>

  datatype QueryParams = QueryParams(
    tableName: string,
    keyCondition: string,
    values: map<string, string>,
    scanIndexForward: bool,
    exclusiveStartKey: Option<StoreKey>,
    limit: nat)

  /** What a query sends back: a thrown error, or a page whose `Items` may be
      absent and whose `LastEvaluatedKey` is present when more data follows. */
  datatype QueryReply =
    | QueryFailed(error: ErrorInfo)
    | QueryPage(items: Option<seq<ChatMessage>>, lastKey: Option<StoreKey>)

  /** The document store: the `DYNAMODB_MESSAGES_TABLE` setting the table name
      is chosen from, and the outcome of a put (`None` when it succeeds) and of
      a query. */
  datatype Store = Store(
    tableSetting: Option<string>,
    put: PutCommand -> Option<ErrorInfo>,
    query: QueryParams -> QueryReply)

  /** `JSON.stringify` and `JSON.parse` restricted to store keys. */
  datatype KeyJson = KeyJson(stringify: StoreKey -> string, parse: string -> Result<StoreKey, ErrorInfo>)

  /** A key's JSON text is never empty and parses back to the key. */
  ghost predicate KeyJsonRoundTrips(json: KeyJson) {
    forall k: StoreKey :: json.parse(json.stringify(k)) == Ok(k) && json.stringify(k) != ""
  }

  // ---------------------------------------------------------------- addMessage

  /** The timestamp written to the store: a number becomes its ISO rendering,
      a string is kept, anything else becomes the current time as ISO. */
  function StoredTimestamp(t: Timestamp, now: int, dates: Dates): string {
    match t
    case NumTs(ms) => dates.toIso(ms)
    case StrTs(s) => s
    case _ => dates.toIso(now)
  }

  /** `{ ...message, timestamp: timestampValue }`. */
  function ToItem(m: ChatMessage, now: int, dates: Dates): (item: ChatMessage)
    ensures item.messageId == m.messageId && item.conversationId == m.conversationId
    ensures item.sender == m.sender && item.message == m.message
    ensures item.timestamp.StrTs?
    ensures m.timestamp.NumTs? ==> item.timestamp.text == dates.toIso(m.timestamp.millis)
    ensures m.timestamp.StrTs? ==> item.timestamp == m.timestamp
    ensures !(m.timestamp.NumTs? || m.timestamp.StrTs?) ==> item.timestamp.text == dates.toIso(now)
  {
    m.(timestamp := StrTs(StoredTimestamp(m.timestamp, now, dates)))
  }

  /** addMessage: writes the normalised item; a store failure is rethrown
      unchanged. `Ok` carries the item that was written. */
  function AddMessage(store: Store, dates: Dates, now: int, m: ChatMessage): (r: Result<ChatMessage, ErrorInfo>)
    ensures r.Ok? <==> store.put(PutCommand(MessagesTable(store.tableSetting), ToItem(m, now, dates))).None?
    ensures r.Ok? ==> r.value == ToItem(m, now, dates)
    ensures r.Err? ==> store.put(PutCommand(MessagesTable(store.tableSetting), ToItem(m, now, dates))) == Some(r.error)
  {
    var item := ToItem(m, now, dates);
    match store.put(PutCommand(MessagesTable(store.tableSetting), item))
    case None => Ok(item)
    case Some(e) => Err(e)
  }

  /** Writing an item that was already normalised writes it unchanged. */
  lemma NormaliseIdempotent(m: ChatMessage, now: int, later: int, dates: Dates)
    ensures ToItem(ToItem(m, now, dates), later, dates) == ToItem(m, now, dates)
  {
  }

  // ------------------------------------------------------------- getMessages

  predicate HasSortKey(m: ChatMessage) {
    !m.timestamp.NoTs?
  }

  /** The comparator's key: a string timestamp is parsed to epoch milliseconds,
      anything else goes through `Number()`: a number is used as it is, `null`
      and `false` are 0, `true` is 1. */
  function SortKey(m: ChatMessage, parse: string -> int): int
    requires HasSortKey(m)
  {
    match m.timestamp
    case NumTs(ms) => ms
    case StrTs(s) => parse(s)
    case NullTs => 0
    case BoolTs(b) => if b then 1 else 0
  }

  predicate AllKeyed(s: seq<ChatMessage>) {
    forall i :: 0 <= i < |s| ==> HasSortKey(s[i])
  }

  /** Non-decreasing by parsed timestamp. */
  predicate SortedByTime(s: seq<ChatMessage>, parse: string -> int) {
    AllKeyed(s) && forall i, j :: 0 <= i < j < |s| ==> SortKey(s[i], parse) <= SortKey(s[j], parse)
  }

  /** Normalising a number or string timestamp for the store keeps the instant
      it sorts by; any other timestamp is stored, and then sorts, as the time
      of the write. */
  lemma NormalisePreservesSortKey(m: ChatMessage, now: int, dates: Dates)
    requires IsoRoundTrips(dates)
    ensures HasSortKey(ToItem(m, now, dates))
    ensures SortKey(ToItem(m, now, dates), dates.parse) ==
      if m.timestamp.NumTs? || m.timestamp.StrTs? then SortKey(m, dates.parse) else now
  {
    if m.timestamp.NumTs? {
      assert dates.parse(dates.toIso(m.timestamp.millis)) == m.timestamp.millis;
    } else if !m.timestamp.StrTs? {
      assert dates.parse(dates.toIso(now)) == now;
    }
  }

  /** The first `n` messages of `s` are in time order. */
  predicate SortedPrefix(s: seq<ChatMessage>, n: nat, parse: string -> int)
    requires n <= |s|
  {
    AllKeyed(s) && forall p, q :: 0 <= p < q < n ==> SortKey(s[p], parse) <= SortKey(s[q], parse)
  }

  /** Exchanges the neighbours at `j - 1` and `j`. */
  method SwapDown(a: array<ChatMessage>, j: nat)
    requires 0 < j < a.Length
    modifies a
    ensures a[..] == old(a[..])[j - 1 := old(a[j])][j := old(a[j - 1])]
    ensures multiset(a[..]) == multiset(old(a[..]))
  {
    a[j - 1], a[j] := a[j], a[j - 1];
  }

  /** One pass of insertion: moves `a[i]` down into the sorted prefix `a[..i]`
      past every message with a strictly later key. */
  method InsertDown(a: array<ChatMessage>, i: nat, parse: string -> int)
    requires 0 < i < a.Length
    requires SortedPrefix(a[..], i, parse)
    modifies a
    ensures SortedPrefix(a[..], i + 1, parse)
    ensures multiset(a[..]) == multiset(old(a[..]))
    ensures a[i + 1..] == old(a[i + 1..])
  {
    var j := i;
    while j > 0 && SortKey(a[j - 1], parse) > SortKey(a[j], parse)
      invariant 0 <= j <= i
      invariant AllKeyed(a[..])
      invariant forall p, q :: 0 <= p < q <= i && p != j && q != j ==> SortKey(a[p], parse) <= SortKey(a[q], parse)
      invariant forall q :: j < q <= i ==> SortKey(a[j], parse) <= SortKey(a[q], parse)
      invariant multiset(a[..]) == multiset(old(a[..]))
      invariant a[i + 1..] == old(a[i + 1..])
    {
      SwapDown(a, j);
      j := j - 1;
    }
  }

  /** `items.sort((a, b) => timeA - timeB)`: sorts the page in place. */
  method SortByTimestamp(a: array<ChatMessage>, parse: string -> int)
    requires AllKeyed(a[..])
    modifies a
    ensures SortedByTime(a[..], parse)
    ensures multiset(a[..]) == multiset(old(a[..]))
  {
    if a.Length == 0 {
      return;
    }
    var i := 1;
    while i < a.Length
      invariant 1 <= i <= a.Length
      invariant SortedPrefix(a[..], i, parse)
      invariant multiset(a[..]) == multiset(old(a[..]))
    {
      InsertDown(a, i, parse);
      i := i + 1;
    }
  }

  /** No two messages of `s` share a sort key. */
  predicate DistinctKeys(s: seq<ChatMessage>, parse: string -> int) {
    AllKeyed(s) && forall i, j :: 0 <= i < j < |s| ==> SortKey(s[i], parse) != SortKey(s[j], parse)
  }

  lemma TailStaysOrdered(s: seq<ChatMessage>, parse: string -> int)
    requires |s| > 0 && SortedByTime(s, parse)
    ensures SortedByTime(s[1..], parse)
    ensures DistinctKeys(s, parse) ==> DistinctKeys(s[1..], parse)
    ensures multiset(s[1..]) == multiset(s) - multiset{s[0]}
  {
    assert s == [s[0]] + s[1..];
  }

  /** In a time-ordered page the first message has the least key. */
  lemma HeadHasLeastKey(s: seq<ChatMessage>, m: ChatMessage, parse: string -> int)
    requires |s| > 0 && SortedByTime(s, parse) && m in multiset(s)
    ensures HasSortKey(m) && SortKey(s[0], parse) <= SortKey(m, parse)
  {
    assert m in s;
  }

  /** When timestamps are distinct, "same messages, in time order" leaves only
      one possible page: the re-sort fixes the order whatever order the store
      returned the messages in. */
  lemma {:induction false} TimeOrderIsUnique(s1: seq<ChatMessage>, s2: seq<ChatMessage>, parse: string -> int)
    requires multiset(s1) == multiset(s2)
    requires SortedByTime(s1, parse) && SortedByTime(s2, parse)
    requires DistinctKeys(s1, parse)
    ensures s1 == s2
    decreases |s1|
  {
    assert |s1| == |multiset(s1)| == |s2|;
    if |s1| > 0 {
      SameHead(s1, s2, parse);
      TailStaysOrdered(s1, parse);
      TailStaysOrdered(s2, parse);
      TimeOrderIsUnique(s1[1..], s2[1..], parse);
      assert s1 == [s1[0]] + s1[1..] && s2 == [s2[0]] + s2[1..];
    }
  }

  /** Two time orders of the same distinct-keyed messages start alike. */
  lemma SameHead(s1: seq<ChatMessage>, s2: seq<ChatMessage>, parse: string -> int)
    requires |s1| > 0 && |s2| > 0 && multiset(s1) == multiset(s2)
    requires SortedByTime(s1, parse) && SortedByTime(s2, parse)
    requires DistinctKeys(s1, parse)
    ensures s1[0] == s2[0]
  {
    var x, y := s1[0], s2[0];
    HeadHasLeastKey(s1, y, parse);
    HeadHasLeastKey(s2, x, parse);
    assert y in s1;
    var k :| 0 <= k < |s1| && s1[k] == y;
    assert k == 0;
  }

  /** `lastEvaluatedKey ? JSON.parse(lastEvaluatedKey) : undefined`: an absent
      or empty cursor starts from the beginning; a malformed one throws. */
  function StartKey(json: KeyJson, cursor: Option<string>): (r: Result<Option<StoreKey>, ErrorInfo>)
    ensures cursor.None? || cursor.value == "" ==> r == Ok(None)
    ensures cursor.Some? && cursor.value != "" ==>
      && (r.Ok? <==> json.parse(cursor.value).Ok?)
      && (r.Ok? ==> r.value == Some(json.parse(cursor.value).value))
      && (r.Err? ==> r.error == json.parse(cursor.value).error)
  {
    if cursor.Some? && cursor.value != "" then
      match json.parse(cursor.value)
      case Ok(k) => Ok(Some(k))
      case Err(e) => Err(e)
    else Ok(None)
  }

  /** The query for one page of a conversation. */
  function QueryFor(table: string, conversationId: string, startKey: Option<StoreKey>): (q: QueryParams)
    ensures q.tableName == table && q.keyCondition == KeyCondition
    ensures q.values.Keys == {":conversationId"} && q.values[":conversationId"] == conversationId
    ensures q.scanIndexForward && q.limit == PageLimit && q.exclusiveStartKey == startKey
  {
    QueryParams(table, KeyCondition, map[":conversationId" := conversationId], true, startKey, PageLimit)
  }

  /** `response.LastEvaluatedKey ? JSON.stringify(...) : null`. */
  function CursorOf(json: KeyJson, lastKey: Option<StoreKey>): (cursor: Option<string>)
    ensures cursor.None? <==> lastKey.None?
  {
    match lastKey
    case Some(k) => Some(json.stringify(k))
    case None => None
  }

  /** A continuation key handed back as a cursor resumes at that same key. */
  lemma CursorRoundTrip(json: KeyJson, lastKey: Option<StoreKey>)
    requires KeyJsonRoundTrips(json)
    ensures StartKey(json, CursorOf(json, lastKey)) == Ok(lastKey)
  {
    if lastKey.Some? {
      var k := lastKey.value;
      assert json.parse(json.stringify(k)) == Ok(k) && json.stringify(k) != "";
    }
  }

  datatype MessagesPage = MessagesPage(items: seq<ChatMessage>, lastEvaluatedKey: Option<string>)

  /** `out` is the store page re-sorted: the same messages, and in time order
      whenever every message has a number or string timestamp. */
  predicate ReorderedPage(out: seq<ChatMessage>, page: seq<ChatMessage>, parse: string -> int) {
    multiset(out) == multiset(page) && (AllKeyed(page) ==> SortedByTime(out, parse))
  }

  /** getMessages(conversationId, lastEvaluatedKey). */
  method GetMessages(store: Store, json: KeyJson, dates: Dates, conversationId: string, cursor: Option<string>)
    returns (r: Result<MessagesPage, ErrorInfo>)
    ensures StartKey(json, cursor).Err? ==> r == Err(StartKey(json, cursor).error)
    ensures StartKey(json, cursor).Ok? ==>
      var reply := store.query(QueryFor(MessagesTable(store.tableSetting), conversationId, StartKey(json, cursor).value));
      && (reply.QueryFailed? ==> r == Err(reply.error))
      && (reply.QueryPage? ==>
            && r.Ok?
            && ReorderedPage(r.value.items, reply.items.GetOr([]), dates.parse)
            && r.value.lastEvaluatedKey == CursorOf(json, reply.lastKey))
  {
    var startKey := StartKey(json, cursor);
    if startKey.Err? {
      return Err(startKey.error);
    }
    var reply := store.query(QueryFor(MessagesTable(store.tableSetting), conversationId, startKey.value));
    if reply.QueryFailed? {
      return Err(reply.error);
    }
    var page := reply.items.GetOr([]);
    var a := new ChatMessage[|page|](i requires 0 <= i < |page| => page[i]);
    assert a[..] == page;
    if AllKeyed(page) {
      SortByTimestamp(a, dates.parse);
    }
    // otherwise a comparator returning NaN leaves the order implementation-defined
    r := Ok(MessagesPage(a[..], CursorOf(json, reply.lastKey)));
  }
}

=== FILE: error_handler.dfy ===
/** The first-match classifier that turns a thrown store error into the
    `{ error, details }` body of a 500 response (lib/errorHandler.ts). */
module ErrorHandler {
  import opened Js

  /** The JSON body of an error response. */
  datatype ErrorBody = ErrorBody(error: string, details: JsValue)

  const CredentialsText := "AWS credentials not found or invalid"
  const TableText := "DynamoDB table not found"
  const EndpointPrefix := "Cannot connect to DynamoDB endpoint: "

  /** One classification rule: a strict-equality test on the error's `name` or
      `code`, and the text it yields when it fires. */
  datatype Rule =
    | NameRule(name: string, text: string)
    | CodeRule(code: string, prefix: string)

  predicate Fires(rule: Rule, e: ErrorInfo) {
    match rule
    case NameRule(n, _) => e.name == Str(n)
    case CodeRule(c, _) => e.code == Str(c)
  }

  function TextOf(rule: Rule, e: ErrorInfo): string {
    match rule
    case NameRule(_, t) => t
    case CodeRule(_, p) => p + Render(e.hostname)
  }

  /** The classifier's rules, in the order they are tried. */
  const Rules: seq<Rule> := [
    NameRule("CredentialsProviderError", CredentialsText),
    NameRule("ResourceNotFoundException", TableText),
    CodeRule("ENOTFOUND", EndpointPrefix)
  ]

  /** Reference semantics of a rule table: the text of the first rule that
      fires, or `default` when none does. */
  function FirstMatch(rules: seq<Rule>, e: ErrorInfo, default: string): string {
    if |rules| == 0 then default
    else if Fires(rules[0], e) then TextOf(rules[0], e)
    else FirstMatch(rules[1..], e, default)
  }

  /** handleError(error, defaultMessage): the if / else-if chain of the source. */
  function HandleError(e: ErrorInfo, defaultMessage: string): (r: ErrorBody)
    ensures r.details == e.message
  {
    var errorMessage :=
      if e.name == Str("CredentialsProviderError") then CredentialsText
      else if e.name == Str("ResourceNotFoundException") then TableText
      else if e.code == Str("ENOTFOUND") then EndpointPrefix + Render(e.hostname)
      else defaultMessage;
    ErrorBody(errorMessage, e.message)
  }

  /** A rule table yields the text of its earliest firing rule. */
  lemma {:induction false} FirstMatchPicksEarliest(rules: seq<Rule>, e: ErrorInfo, default: string, k: nat)
    requires k < |rules| && Fires(rules[k], e)
    requires forall j :: 0 <= j < k ==> !Fires(rules[j], e)
    ensures FirstMatch(rules, e, default) == TextOf(rules[k], e)
    decreases k
  {
    if k > 0 {
      assert !Fires(rules[0], e);
      FirstMatchPicksEarliest(rules[1..], e, default, k - 1);
    }
  }

  /** A rule table in which no rule fires yields `default`. */
  lemma {:induction false} FirstMatchDefault(rules: seq<Rule>, e: ErrorInfo, default: string)
    requires forall j :: 0 <= j < |rules| ==> !Fires(rules[j], e)
    ensures FirstMatch(rules, e, default) == default
    decreases |rules|
  {
    if |rules| > 0 {
      assert !Fires(rules[0], e);
      FirstMatchDefault(rules[1..], e, default);
    }
  }

  /** handleError is the rule table `Rules` read first-match. */
  lemma HandleErrorIsFirstMatch(e: ErrorInfo, defaultMessage: string)
    ensures HandleError(e, defaultMessage).error == FirstMatch(Rules, e, defaultMessage)
  {
    if e.name == Str("CredentialsProviderError") {
      FirstMatchPicksEarliest(Rules, e, defaultMessage, 0);
    } else if e.name == Str("ResourceNotFoundException") {
      FirstMatchPicksEarliest(Rules, e, defaultMessage, 1);
    } else if e.code == Str("ENOTFOUND") {
      FirstMatchPicksEarliest(Rules, e, defaultMessage, 2);
    } else {
      FirstMatchDefault(Rules, e, defaultMessage);
    }
  }

  /** The classification of handleError, rule by rule: credentials, then table,
      then unreachable endpoint (with the hostname), else the caller's default. */
  lemma HandleErrorClassifies(e: ErrorInfo, defaultMessage: string)
    ensures e.name == Str("CredentialsProviderError") ==>
      HandleError(e, defaultMessage).error == CredentialsText
    ensures e.name == Str("ResourceNotFoundException") ==>
      HandleError(e, defaultMessage).error == TableText
    ensures e.code == Str("ENOTFOUND") && !Fires(Rules[0], e) && !Fires(Rules[1], e) ==>
      HandleError(e, defaultMessage).error == EndpointPrefix + Render(e.hostname)
    ensures (forall j :: 0 <= j < |Rules| ==> !Fires(Rules[j], e)) ==>
      HandleError(e, defaultMessage).error == defaultMessage
  {
    if forall j :: 0 <= j < |Rules| ==> !Fires(Rules[j], e) {
      assert !Fires(Rules[0], e) && !Fires(Rules[1], e) && !Fires(Rules[2], e);
    }
  }

  /** A name match wins over an ENOTFOUND code on the same error. */
  lemma NameRuleBeatsCodeRule(e: ErrorInfo, defaultMessage: string)
    requires e.code == Str("ENOTFOUND")
    requires e.name == Str("CredentialsProviderError") || e.name == Str("ResourceNotFoundException")
    ensures HandleError(e, defaultMessage).error != EndpointPrefix + Render(e.hostname)
  {
  }

  /** The user-facing text depends only on the error's name, code and hostname,
      never on its message; the message travels unchanged as `details`. */
  lemma ErrorTextIgnoresMessage(e: ErrorInfo, message: JsValue, defaultMessage: string)
    ensures HandleError(e.(message := message), defaultMessage).error == HandleError(e, defaultMessage).error
    ensures HandleError(e.(message := message), defaultMessage).details == message
  {
  }
}

=== FILE: groq.dfy ===
/** The chat-reply adapter (lib/groq.ts): builds the role-tagged transcript
    from the conversation history, calls the completion endpoint (a
    parameter here) and turns its answer into reply text or a thrown error. */
module Groq {
  import opened Wrappers
  import opened Js

  datatype Role = System | User | Assistant

  /** One transcript entry. The content of an assistant turn is the history
      entry's raw `message` value, which need not be a string. */
  datatype GroqMessage = GroqMessage(role: Role, content: JsValue)

  const GroqApiUrl := "https://api.groq.com/openai/v1/chat/completions"
  const GroqModel := "llama3-8b-8192"
  const MaxTokens: nat := 150
  const SystemPrompt := "You are a helpful AI assistant. Keep your responses concise and friendly. Avoid long explanations."
  /** The sender name that marks a history message as the assistant's own. */
  const BotSender := "Groq"
  const MissingKeyText := "GROQ_API_KEY is not configured"
  const ApiErrorPrefix := "Groq API error: "
  const UnknownErrorText := "Unknown error"

  const SystemTurn := GroqMessage(System, Str(SystemPrompt))

  /** The POST sent to the completion endpoint (temperature is not modelled). */
  datatype CompletionRequest = CompletionRequest(
    url: string,
    authorization: string,
    model: string,
    messages: seq<GroqMessage>,
    maxTokens: nat)

  /** What the endpoint does with a request: `fetch` rejects; or it answers
      with a non-OK status and a body that `response.json()` parses (or fails
      to); or it answers OK with the `message.content` of each choice. */
  datatype CompletionReply =
    | FetchFailed(error: ErrorInfo)
    | Rejected(errorBody: Result<JsValue, ErrorInfo>)
    | Accepted(choices: Result<seq<string>, ErrorInfo>)

  /** `!GROQ_API_KEY` is false: the key is set and non-empty. */
  predicate KeyConfigured(apiKey: Option<string>) {
    apiKey.Some? && apiKey.value != ""
  }

  function RequestFor(apiKey: string, messages: seq<GroqMessage>): CompletionRequest {
    CompletionRequest(GroqApiUrl, "Bearer " + apiKey, GroqModel, messages, MaxTokens)
  }

  /** The transcript entry for one history message (the body of the
      `forEach` callback); reading `sender` of a null entry throws. */
  function HistoryTurn(msg: JsValue): (r: Result<GroqMessage, ErrorInfo>)
    ensures r.Err? <==> msg.Undefined? || msg.Null?
    ensures r.Ok? ==> (r.value.role == Assistant <==> Prop(msg, "sender") == Ok(Str(BotSender)))
    ensures r.Ok? ==> r.value.role != System
  {
    match Prop(msg, "sender")
    case Err(e) => Err(e)
    case Ok(sender) =>
      var text := Prop(msg, "message").value;
      if sender == Str(BotSender) then Ok(GroqMessage(Assistant, text))
      else Ok(GroqMessage(User, Str(Render(sender) + ": " + Render(text))))
  }

  /** For a history entry shaped like a stored chat message: the bot's own
      messages become assistant turns with the raw text, everyone else's
      become user turns reading "sender: message". */
  lemma HistoryTurnOfChatMessage(fields: map<string, JsValue>, sender: string, text: string)
    requires "sender" in fields && fields["sender"] == Str(sender)
    requires "message" in fields && fields["message"] == Str(text)
    ensures sender == BotSender ==> HistoryTurn(Obj(fields)) == Ok(GroqMessage(Assistant, Str(text)))
    ensures sender != BotSender ==> HistoryTurn(Obj(fields)) == Ok(GroqMessage(User, Str(sender + ": " + text)))
  {
  }

  /** `t` is the transcript for `userMessage` after `history`: the system
      instruction, one turn per history message in order, then the user's turn. */
  predicate IsTranscript(t: seq<GroqMessage>, userMessage: string, history: seq<JsValue>) {
    && |t| == |history| + 2
    && t[0] == SystemTurn
    && t[|t| - 1] == GroqMessage(User, Str(userMessage))
    && forall i :: 0 <= i < |history| ==> HistoryTurn(history[i]) == Ok(t[i + 1])
  }

  /** The transcript of a conversation is determined by its inputs. */
  lemma TranscriptUnique(t1: seq<GroqMessage>, t2: seq<GroqMessage>, userMessage: string, history: seq<JsValue>)
    requires IsTranscript(t1, userMessage, history) && IsTranscript(t2, userMessage, history)
    ensures t1 == t2
  {
    forall k | 0 <= k < |t1|
      ensures t1[k] == t2[k]
    {
      if 0 < k < |t1| - 1 {
        assert HistoryTurn(history[k - 1]) == Ok(t1[k]);
        assert HistoryTurn(history[k - 1]) == Ok(t2[k]);
      }
    }
  }

  /** Without history (the parameter's default) the transcript is the system
      instruction followed by the user's message, and nothing else. */
  lemma EmptyHistoryTranscript(t: seq<GroqMessage>, userMessage: string)
    ensures IsTranscript(t, userMessage, []) <==> t == [SystemTurn, GroqMessage(User, Str(userMessage))]
  {
  }

  /** Builds `formattedMessages` by pushing one turn per history message after
      the system turn, then the user's turn. A history entry whose properties
      cannot be read throws out of the `forEach`. */
  method BuildTranscript(userMessage: string, history: seq<JsValue>) returns (r: Result<seq<GroqMessage>, ErrorInfo>)
    ensures r.Ok? <==> forall i :: 0 <= i < |history| ==> HistoryTurn(history[i]).Ok?
    ensures r.Ok? ==> IsTranscript(r.value, userMessage, history)
    ensures r.Err? ==> exists i :: 0 <= i < |history| && HistoryTurn(history[i]) == Err(r.error)
                                  && forall j :: 0 <= j < i ==> HistoryTurn(history[j]).Ok?
  {
    var formatted := [SystemTurn];
    var i := 0;
    while i < |history|
      invariant 0 <= i <= |history|
      invariant |formatted| == i + 1 && formatted[0] == SystemTurn
      invariant forall j :: 0 <= j < i ==> HistoryTurn(history[j]) == Ok(formatted[j + 1])
    {
      var turn := HistoryTurn(history[i]);
      if turn.Err? {
        return Err(turn.error);
      }
      formatted := formatted + [turn.value];
      i := i + 1;
    }
    formatted := formatted + [GroqMessage(User, Str(userMessage))];
    r := Ok(formatted);
  }

  /** `errorData.error?.message || 'Unknown error'`; reading `error` of a null
      body throws. */
  function UpstreamErrorText(errorData: JsValue): (r: Result<string, ErrorInfo>)
    ensures r.Err? <==> errorData.Null? || errorData.Undefined?
  {
    match Prop(errorData, "error")
    case Err(e) => Err(e)
    case Ok(inner) =>
      var msg := if inner.Undefined? || inner.Null? then Undefined else Prop(inner, "message").value;
      Ok(if Truthy(msg) then Render(msg) else UnknownErrorText)
  }

  /** The reply text, or the error getGroqResponse throws, for a completion
      reply. */
  function ReplyOutcome(reply: CompletionReply): (r: Result<string, ErrorInfo>)
    ensures reply.FetchFailed? ==> r == Err(reply.error)
    ensures reply.Accepted? && reply.choices.Ok? && |reply.choices.value| > 0 ==>
      r == Ok(Trim(reply.choices.value[0]))
  {
    match reply
    case FetchFailed(e) => Err(e)
    case Rejected(Err(e)) => Err(e)
    case Rejected(Ok(errorData)) =>
      (match UpstreamErrorText(errorData)
       case Ok(text) => Err(PlainError(ApiErrorPrefix + text))
       case Err(e) => Err(e))
    case Accepted(Err(e)) => Err(e)
    case Accepted(Ok(choices)) =>
      if |choices| == 0 then Err(TypeErrorReading(Undefined, "message"))
      else Ok(Trim(choices[0]))
  }

  /** A non-OK answer throws "Groq API error: " followed by the upstream's
      `error.message` when that is a non-empty string, or by "Unknown error"
      when the body carries no error or no message. */
  lemma RejectedReplyMessage(errorData: JsValue)
    ensures (errorData.Obj? && "error" in errorData.fields && errorData.fields["error"].Obj?
             && "message" in errorData.fields["error"].fields
             && errorData.fields["error"].fields["message"].Str?
             && errorData.fields["error"].fields["message"].s != "") ==>
      ReplyOutcome(Rejected(Ok(errorData))) ==
        Err(PlainError(ApiErrorPrefix + errorData.fields["error"].fields["message"].s))
    ensures (errorData.Obj? && ("error" !in errorData.fields || errorData.fields["error"].Null?)) ==>
      ReplyOutcome(Rejected(Ok(errorData))) == Err(PlainError(ApiErrorPrefix + UnknownErrorText))
    ensures errorData.Obj? ==> ReplyOutcome(Rejected(Ok(errorData))).Err?
  {
  }

  /** Reply text is always trimmed: no leading or trailing whitespace. */
  lemma ReplyIsTrimmed(reply: CompletionReply)
    requires ReplyOutcome(reply).Ok?
    ensures var text := ReplyOutcome(reply).value;
      text != [] ==> !IsWhitespace(text[0]) && !IsWhitespace(text[|text| - 1])
  {
    TrimmedHasNoEdgeWhitespace(reply.choices.value[0]);
  }

  /** getGroqResponse(userMessage, previousMessages). `sent` is the request
      issued to the endpoint, if any; `complete` answers it. */
  method GetGroqResponse(apiKey: Option<string>, userMessage: string, history: seq<JsValue>,
                         complete: CompletionRequest -> CompletionReply)
    returns (r: Result<string, ErrorInfo>, sent: Option<CompletionRequest>)
    ensures !KeyConfigured(apiKey) ==> r == Err(PlainError(MissingKeyText)) && sent.None?
    ensures sent.Some? ==>
      && KeyConfigured(apiKey)
      && sent.value == RequestFor(apiKey.value, sent.value.messages)
      && IsTranscript(sent.value.messages, userMessage, history)
      && r == ReplyOutcome(complete(sent.value))
    ensures KeyConfigured(apiKey) && (forall i :: 0 <= i < |history| ==> HistoryTurn(history[i]).Ok?) ==> sent.Some?
    ensures KeyConfigured(apiKey) && sent.None? ==>
      r.Err? && exists i :: 0 <= i < |history| && HistoryTurn(history[i]) == Err(r.error)
                            && forall j :: 0 <= j < i ==> HistoryTurn(history[j]).Ok?
  {
    if !KeyConfigured(apiKey) {
      return Err(PlainError(MissingKeyText)), None;
    }
    var transcript := BuildTranscript(userMessage, history);
    if transcript.Err? {
      return Err(transcript.error), None;
    }
    var request := RequestFor(apiKey.value, transcript.value);
    sent := Some(request);
    r := ReplyOutcome(complete(request));
  }
}

=== FILE: groq_response_route.dfy ===
/** POST /api/messages/groq-response (app/api/messages/groq-response/route.ts):
    validate, get the reply, then persist it as a message from the bot. */
module GroqResponseRoute {
  import opened Wrappers
  import opened Js
  import opened ErrorHandler
  import opened Dynamo
  import opened Groq
  import opened Routes

  const InvalidConversationText := "Invalid conversationId"
  const MissingUserMessageText := "User message is required"
  const AiFailedText := "Failed to get AI response or save it to database"

  /** `Array.isArray(body.previousMessages) ? body.previousMessages : []`. */
  function HistoryArg(previous: JsValue): (history: seq<JsValue>)
    ensures previous.Arr? ==> history == previous.elems
    ensures !previous.Arr? ==> history == []
  {
    if previous.Arr? then previous.elems else []
  }

  /** The message that wraps the reply text. */
  function AiMessage(env: Env, dates: Dates, conversationId: string, reply: string): ChatMessage {
    ChatMessage(env.freshId, conversationId, BotSender, reply, StrTs(dates.toIso(env.now)))
  }

  /** The bot's message is stored exactly as it is answered. */
  lemma AiMessageStoredAsIs(env: Env, dates: Dates, conversationId: string, reply: string, now: int)
    ensures ToItem(AiMessage(env, dates, conversationId, reply), now, dates) == AiMessage(env, dates, conversationId, reply)
  {
  }

  /** The request passes both guards: an object body whose `conversationId`
      and `userMessage` are non-empty strings. */
  predicate PassesValidation(request: Result<JsValue, ErrorInfo>) {
    && request.Ok? && request.value.Obj?
    && NonEmptyString(Field(request.value.fields, "conversationId"))
    && NonEmptyString(Field(request.value.fields, "userMessage"))
  }

  /** The history handed to the reply builder for an object body. */
  function HistoryOf(request: Result<JsValue, ErrorInfo>): seq<JsValue>
    requires request.Ok? && request.value.Obj?
  {
    HistoryArg(Field(request.value.fields, "previousMessages"))
  }

  /** POST(request). `apiKey` is the configured completion key, `complete`
      answers the completion request, `sent` is the request issued (if any). */
  method Post(request: Result<JsValue, ErrorInfo>, apiKey: Option<string>,
              complete: CompletionRequest -> CompletionReply, env: Env, store: Store, dates: Dates)
    returns (r: RouteOutcome, sent: Option<CompletionRequest>)
    // an unreadable body is classified; nothing is requested or written
    ensures request.Err? ==>
      r == RouteOutcome(Failed(HandleError(request.error, AiFailedText)), []) && sent.None?
    // a body that is not an object: reading `conversationId` throws on null, else it is missing
    ensures request.Ok? && !request.value.Obj? ==>
      var p := Prop(request.value, "conversationId");
      && sent.None? && r.attempted == []
      && r.response == if p.Err? then Failed(HandleError(p.error, AiFailedText)) else BadRequest(InvalidConversationText)
    // 400s: conversationId first, then userMessage; nothing is requested or written
    ensures request.Ok? && request.value.Obj? ==>
      var cid := Field(request.value.fields, "conversationId");
      var user := Field(request.value.fields, "userMessage");
      && (r.response == BadRequest(InvalidConversationText) <==> !NonEmptyString(cid))
      && (r.response == BadRequest(MissingUserMessageText) <==> NonEmptyString(cid) && !NonEmptyString(user))
    ensures r.response.BadRequest? ==> sent.None? && r.attempted == []
    // an unconfigured key fails before any request and writes nothing
    ensures PassesValidation(request) && !KeyConfigured(apiKey) ==>
      && r.response == Failed(HandleError(PlainError(MissingKeyText), AiFailedText))
      && sent.None? && r.attempted == []
    // the reply request carries the bearer key and the sanitised history
    ensures sent.Some? ==>
      && PassesValidation(request) && KeyConfigured(apiKey)
      && sent.value == RequestFor(apiKey.value, sent.value.messages)
      && IsTranscript(sent.value.messages, Field(request.value.fields, "userMessage").s, HistoryOf(request))
    // with a key and a readable history the request is always sent
    ensures PassesValidation(request) && KeyConfigured(apiKey)
            && (forall i :: 0 <= i < |HistoryOf(request)| ==> HistoryTurn(HistoryOf(request)[i]).Ok?) ==>
      sent.Some?
    // otherwise the first unreadable history entry's error is classified; nothing is written
    ensures PassesValidation(request) && KeyConfigured(apiKey) && sent.None? ==>
      var history := HistoryOf(request);
      && r.attempted == []
      && exists i :: && 0 <= i < |history| && HistoryTurn(history[i]).Err?
                     && (forall j :: 0 <= j < i ==> HistoryTurn(history[j]).Ok?)
                     && r.response == Failed(HandleError(HistoryTurn(history[i]).error, AiFailedText))
    // a failed reply is classified, and nothing is written
    ensures sent.Some? && ReplyOutcome(complete(sent.value)).Err? ==>
      r == RouteOutcome(Failed(HandleError(ReplyOutcome(complete(sent.value)).error, AiFailedText)), [])
    // a reply is written as the bot's message; the route answers it exactly when the write succeeds
    ensures sent.Some? && ReplyOutcome(complete(sent.value)).Ok? ==>
      var m := AiMessage(env, dates, Field(request.value.fields, "conversationId").s,
                         ReplyOutcome(complete(sent.value)).value);
      var put := store.put(PutCommand(MessagesTable(store.tableSetting), m));
      && r.attempted == [m]
      && r.response == if put.None? then Sent(m) else Failed(HandleError(put.value, AiFailedText))
    ensures |r.attempted| <= 1
    // success answers with exactly the stored message
    ensures r.response.Sent? ==>
      && r.attempted == [r.response.message]
      && store.put(PutCommand(MessagesTable(store.tableSetting), r.response.message)).None?
    // every thrown error becomes handleError(error, AiFailedText)
    ensures r.response.Failed? ==> exists e :: r.response.body == HandleError(e, AiFailedText)
  {
    sent := None;
    if request.Err? {
      return RouteOutcome(Failed(HandleError(request.error, AiFailedText)), []), None;
    }
    var body := request.value;
    var conversationId := Prop(body, "conversationId");
    if conversationId.Err? {
      return RouteOutcome(Failed(HandleError(conversationId.error, AiFailedText)), []), None;
    }
    if !NonEmptyString(conversationId.value) {
      return RouteOutcome(BadRequest(InvalidConversationText), []), None;
    }
    var userMessage := Prop(body, "userMessage").value;
    if !NonEmptyString(userMessage) {
      return RouteOutcome(BadRequest(MissingUserMessageText), []), None;
    }
    var history := HistoryArg(Prop(body, "previousMessages").value);
    assert history == HistoryOf(request);
    var reply;
    reply, sent := GetGroqResponse(apiKey, userMessage.s, history, complete);
    if reply.Err? {
      return RouteOutcome(Failed(HandleError(reply.error, AiFailedText)), []), sent;
    }
    var aiMessage := AiMessage(env, dates, conversationId.value.s, reply.value);
    var written := AddMessage(store, dates, env.now, aiMessage);
    if written.Err? {
      r := RouteOutcome(Failed(HandleError(written.error, AiFailedText)), [aiMessage]);
    } else {
      r := RouteOutcome(Sent(aiMessage), [aiMessage]);
    }
  }
}

=== FILE: js.dfy ===
/** The slice of JavaScript semantics the request handlers depend on:
    parsed JSON values, thrown errors, truthiness, property reads,
    template-literal string conversion and `String.prototype.trim`. */
module Js {
  import opened Wrappers

  /** A value as produced by `JSON.parse` (plus `undefined`, which a missing
      property reads as). Numbers are integers: floating point is not modelled. */
  datatype JsValue =
    | Undefined
    | Null
    | Bool(b: bool)
    | Num(n: int)
    | Str(s: string)
    | Arr(elems: seq<JsValue>)
    | Obj(fields: map<string, JsValue>)

  /** The properties of a thrown value that the handlers inspect. */
  datatype ErrorInfo = ErrorInfo(name: JsValue, code: JsValue, hostname: JsValue, message: JsValue)

  /** What `new Error(msg)` throws. */
  function PlainError(msg: string): (e: ErrorInfo)
    ensures e.message == Str(msg) && e.code == Undefined
  {
    ErrorInfo(Str("Error"), Undefined, Undefined, Str(msg))
  }

  /** What V8 throws when a property is read from `null` or `undefined`. */
  function TypeErrorReading(base: JsValue, key: string): (e: ErrorInfo)
    ensures e.name == Str("TypeError")
  {
    var what := if base.Null? then "null" else "undefined";
    ErrorInfo(Str("TypeError"), Undefined, Undefined,
              Str("Cannot read properties of " + what + " (reading '" + key + "')"))
  }

  /** JavaScript truthiness (`!v` is `!Truthy(v)`). */
  predicate Truthy(v: JsValue) {
    match v
    case Undefined => false
    case Null => false
    case Bool(b) => b
    case Num(n) => n != 0
    case Str(s) => s != ""
    case Arr(_) => true
    case Obj(_) => true
  }

  /** `typeof v === 'string'`. */
  predicate IsString(v: JsValue) {
    v.Str?
  }

  /** `obj[key]` of an object's own fields: `undefined` when it lacks the key. */
  function Field(fields: map<string, JsValue>, key: string): (v: JsValue)
    ensures key in fields ==> v == fields[key]
    ensures key !in fields ==> v == Undefined
  {
    if key in fields then fields[key] else Undefined
  }

  /** `v.key`: throws on `null` and `undefined`, reads `undefined` for a key an
      object lacks and for the (non-index) keys of other primitives and arrays. */
  function Prop(v: JsValue, key: string): (r: Result<JsValue, ErrorInfo>)
    ensures r.Err? <==> v.Undefined? || v.Null?
    ensures r.Err? ==> r.error == TypeErrorReading(v, key)
    ensures v.Obj? ==> r == Ok(Field(v.fields, key))
    ensures !(v.Obj? || v.Undefined? || v.Null?) ==> r == Ok(Undefined)
    ensures r.Ok? && r.value != Undefined ==> v.Obj? && key in v.fields && v.fields[key] == r.value
  {
    match v
    case Undefined => Err(TypeErrorReading(v, key))
    case Null => Err(TypeErrorReading(v, key))
    case Obj(fields) => Ok(if key in fields then fields[key] else Undefined)
    case _ => Ok(Undefined)
  }

  function Digit(d: nat): char
    requires d < 10
  {
    "0123456789"[d]
  }

  function NatDigits(n: nat): (r: string)
    ensures |r| > 0
  {
    if n < 10 then [Digit(n)] else NatDigits(n / 10) + [Digit(n % 10)]
  }

  /** `String(n)` for an integral number (exponent notation for huge values is
      not modelled). */
  function DecimalString(n: int): (r: string)
    ensures |r| > 0
  {
    if n < 0 then "-" + NatDigits(-n) else NatDigits(n)
  }

  function JoinComma(parts: seq<string>): string {
    if |parts| == 0 then ""
    else if |parts| == 1 then parts[0]
    else parts[0] + "," + JoinComma(parts[1..])
  }

  /** The string a template literal `${v}` inserts for `v`. */
  function Render(v: JsValue): (r: string)
    ensures v.Str? ==> r == v.s
    decreases v
  {
    match v
    case Undefined => "undefined"
    case Null => "null"
    case Bool(b) => if b then "true" else "false"
    case Num(n) => DecimalString(n)
    case Str(s) => s
    case Arr(es) =>
      // Array.prototype.join renders null and undefined elements as ""
      JoinComma(seq(|es|, i requires 0 <= i < |es| =>
        if es[i].Undefined? || es[i].Null? then "" else Render(es[i])))
    case Obj(_) => "[object Object]"
  }

  /** The code points `String.prototype.trim` strips: WhiteSpace and
      LineTerminator of the ECMAScript grammar. */
  predicate IsWhitespace(c: char) {
    || c == '\t' || c == '\n' || c == '\U{000B}' || c == '\U{000C}' || c == '\r'
    || c == ' ' || c == '\U{00A0}' || c == '\U{1680}'
    || ('\U{2000}' <= c <= '\U{200A}')
    || c == '\U{2028}' || c == '\U{2029}' || c == '\U{202F}' || c == '\U{205F}'
    || c == '\U{3000}' || c == '\U{FEFF}'
  }

  predicate AllWhitespace(s: string) {
    forall i :: 0 <= i < |s| ==> IsWhitespace(s[i])
  }

  function TrimStart(s: string): (r: string)
    decreases |s|
  {
    if |s| > 0 && IsWhitespace(s[0]) then TrimStart(s[1..]) else s
  }

  function TrimEnd(s: string): (r: string)
    decreases |s|
  {
    if |s| > 0 && IsWhitespace(s[|s| - 1]) then TrimEnd(s[..|s| - 1]) else s
  }

  /** `s.trim()`. */
  function Trim(s: string): string {
    TrimEnd(TrimStart(s))
  }

  /** TrimStart drops exactly a whitespace prefix and stops at a non-whitespace. */
  lemma {:induction false} TrimStartDropsBlankPrefix(s: string)
    ensures |TrimStart(s)| <= |s| && TrimStart(s) == s[|s| - |TrimStart(s)|..]
    ensures forall i :: 0 <= i < |s| - |TrimStart(s)| ==> IsWhitespace(s[i])
    ensures TrimStart(s) != [] ==> !IsWhitespace(TrimStart(s)[0])
    decreases |s|
  {
    if |s| > 0 && IsWhitespace(s[0]) {
      TrimStartDropsBlankPrefix(s[1..]);
      assert s[1..][|s[1..]| - |TrimStart(s)|..] == s[|s| - |TrimStart(s)|..];
      forall i | 0 <= i < |s| - |TrimStart(s)|
        ensures IsWhitespace(s[i])
      {
        if i > 0 { assert s[i] == s[1..][i - 1]; }
      }
    }
  }

  /** TrimEnd drops exactly a whitespace suffix and stops at a non-whitespace. */
  lemma {:induction false} TrimEndDropsBlankSuffix(s: string)
    ensures |TrimEnd(s)| <= |s| && TrimEnd(s) == s[..|TrimEnd(s)|]
    ensures forall i :: |TrimEnd(s)| <= i < |s| ==> IsWhitespace(s[i])
    ensures TrimEnd(s) != [] ==> !IsWhitespace(TrimEnd(s)[|TrimEnd(s)| - 1])
    decreases |s|
  {
    if |s| > 0 && IsWhitespace(s[|s| - 1]) {
      var p := s[..|s| - 1];
      TrimEndDropsBlankSuffix(p);
      assert p[..|TrimEnd(p)|] == s[..|TrimEnd(p)|];
      forall i | |TrimEnd(s)| <= i < |s|
        ensures IsWhitespace(s[i])
      {
        if i < |s| - 1 { assert s[i] == p[i]; }
      }
    }
  }

  /** `s.trim().length === 0` exactly when every code point of `s` is whitespace. */
  lemma TrimBlankIffAllWhitespace(s: string)
    ensures Trim(s) == [] <==> AllWhitespace(s)
  {
    var t := TrimStart(s);
    TrimStartDropsBlankPrefix(s);
    TrimEndDropsBlankSuffix(t);
    if Trim(s) == [] {
      assert t == [];
    } else {
      assert t != [] && s[|s| - |t|] == t[0];
    }
  }

  /** The result of `trim()` starts and ends with a non-whitespace code point,
      is a contiguous piece of the input, and trimming it again changes nothing. */
  lemma TrimmedHasNoEdgeWhitespace(s: string)
    ensures Trim(s) != [] ==> !IsWhitespace(Trim(s)[0]) && !IsWhitespace(Trim(s)[|Trim(s)| - 1])
    ensures exists k :: 0 <= k <= |s| && Trim(s) <= s[k..]
    ensures Trim(Trim(s)) == Trim(s)
  {
    var t := TrimStart(s);
    TrimStartDropsBlankPrefix(s);
    TrimEndDropsBlankSuffix(t);
    var r := Trim(s);
    var k := |s| - |t|;
    assert r <= s[k..];
    if r != [] {
      assert r[0] == t[0];
      assert !IsWhitespace(r[0]);
      assert TrimStart(r) == r;
      assert TrimEnd(r) == r;
    }
  }
}

=== FILE: lambda_send_message.dfy ===
/** The legacy Lambda send handler (aws/functions/sendMessage.js): a
    room-keyed record, truthiness checks and fixed CORS headers. */
module LambdaSendMessage {
  import opened Wrappers
  import opened Js

  /** The stored record (the `Message` shape of lib/types.ts); the timestamp
      is a number of epoch milliseconds. */
  datatype RoomItem = RoomItem(roomId: JsValue, timestamp: int, messageId: string, message: JsValue, sender: JsValue)

  datatype PutParams = PutParams(tableName: string, item: RoomItem)

  /** A Lambda proxy response; `body` is the value handed to `JSON.stringify`. */
  datatype LambdaResponse = LambdaResponse(statusCode: int, headers: map<string, JsValue>, body: JsValue)

  /** The response, and the items handed to the store. */
  datatype LambdaOutcome = LambdaOutcome(response: LambdaResponse, attempted: seq<RoomItem>)

  const TableName := "ChatMessages"
  const DefaultRoom := "default"
  const RequiredText := "Message and sender are required"
  const FailedText := "Failed to send message"

  const CorsHeaders: map<string, JsValue> := map[
    "Access-Control-Allow-Origin" := Str("*"),
    "Access-Control-Allow-Credentials" := Bool(true)
  ]

  function ErrorJson(text: string): JsValue {
    Obj(map["error" := Str(text)])
  }

  /** The 201 body: the same five fields as the stored item. */
  function ItemJson(item: RoomItem): JsValue {
    Obj(map[
      "messageId" := Str(item.messageId),
      "roomId" := item.roomId,
      "timestamp" := Num(item.timestamp),
      "message" := item.message,
      "sender" := item.sender
    ])
  }

  /** `roomId = 'default'` in a destructuring pattern: only `undefined` is
      replaced. */
  function RoomOrDefault(roomId: JsValue): JsValue {
    if roomId.Undefined? then Str(DefaultRoom) else roomId
  }

  /** `handler(event)`: `requestBody` is what `JSON.parse(event.body)` yields or
      throws; `now` and `freshId` are `Date.now()` and `uuidv4()`; `put` is the
      store's answer to a write (`None` on success). */
  function Handler(requestBody: Result<JsValue, ErrorInfo>, now: int, freshId: string,
                   put: PutParams -> Option<ErrorInfo>): (r: LambdaOutcome)
    ensures r.response.headers == CorsHeaders
    ensures r.response.statusCode in {201, 400, 500}
    ensures r.response.statusCode == 400 ==> r.response.body == ErrorJson(RequiredText) && r.attempted == []
    ensures r.response.statusCode == 500 ==> r.response.body == ErrorJson(FailedText)
    ensures r.response.statusCode == 201 <==> |r.attempted| == 1 && put(PutParams(TableName, r.attempted[0])).None?
    ensures r.response.statusCode == 201 ==>
      && r.response.body == ItemJson(r.attempted[0])
      && r.attempted[0].timestamp == now && r.attempted[0].messageId == freshId
    // a body that is neither an object, null nor undefined has no `message`
    ensures requestBody.Ok? && !(requestBody.value.Obj? || requestBody.value.Null? || requestBody.value.Undefined?) ==>
      r == LambdaOutcome(LambdaResponse(400, CorsHeaders, ErrorJson(RequiredText)), [])
    // an object body with a truthy message and sender is always written
    ensures requestBody.Ok? && requestBody.value.Obj?
            && Truthy(Field(requestBody.value.fields, "message"))
            && Truthy(Field(requestBody.value.fields, "sender")) ==>
      var fields := requestBody.value.fields;
      var item := RoomItem(RoomOrDefault(Field(fields, "roomId")), now, freshId,
                           Field(fields, "message"), Field(fields, "sender"));
      && r.attempted == [item]
      && (r.response.statusCode == 201 <==> put(PutParams(TableName, item)).None?)
  {
    match requestBody
    case Err(_) => LambdaOutcome(LambdaResponse(500, CorsHeaders, ErrorJson(FailedText)), [])
    case Ok(body) =>
      match Prop(body, "message")
      case Err(_) => LambdaOutcome(LambdaResponse(500, CorsHeaders, ErrorJson(FailedText)), [])
      case Ok(message) =>
        var sender := Prop(body, "sender").value;
        var roomId := RoomOrDefault(Prop(body, "roomId").value);
        if !Truthy(message) || !Truthy(sender) then
          LambdaOutcome(LambdaResponse(400, CorsHeaders, ErrorJson(RequiredText)), [])
        else
          var item := RoomItem(roomId, now, freshId, message, sender);
          match put(PutParams(TableName, item))
          case Some(_) => LambdaOutcome(LambdaResponse(500, CorsHeaders, ErrorJson(FailedText)), [item])
          case None => LambdaOutcome(LambdaResponse(201, CorsHeaders, ItemJson(item)), [item])
  }

  /** For an object body: 400 exactly when `message` or `sender` is falsy; a
      whitespace-only string is truthy and passes. Otherwise the item is always
      written, carries the body's fields, with an absent roomId read as
      'default', and the answer is 201 exactly when the write succeeds. */
  lemma ObjectBodyOutcome(fields: map<string, JsValue>, now: int, freshId: string, put: PutParams -> Option<ErrorInfo>)
    ensures var r := Handler(Ok(Obj(fields)), now, freshId, put);
      var message, sender := Field(fields, "message"), Field(fields, "sender");
      && (r.response.statusCode == 400 <==> !Truthy(message) || !Truthy(sender))
      && (r.attempted != [] ==>
            r.attempted == [RoomItem(RoomOrDefault(Field(fields, "roomId")), now, freshId, message, sender)])
      && ("roomId" !in fields && r.attempted != [] ==> r.attempted[0].roomId == Str(DefaultRoom))
      && (Truthy(message) && Truthy(sender) ==>
            var item := RoomItem(RoomOrDefault(Field(fields, "roomId")), now, freshId, message, sender);
            && r.attempted == [item]
            && (r.response.statusCode == 201 <==> put(PutParams(TableName, item)).None?))
  {
  }

  /** A whitespace-only message from a whitespace-only sender is accepted. */
  lemma BlankStringsPass(now: int, freshId: string, put: PutParams -> Option<ErrorInfo>)
    ensures Handler(Ok(Obj(map["message" := Str(" "), "sender" := Str(" ")])), now, freshId, put).response.statusCode != 400
  {
  }

  /** An unparsable, `null` or `undefined` body answers the fixed 500 and
      writes nothing. */
  lemma FailuresAnswer500(requestBody: Result<JsValue, ErrorInfo>, now: int, freshId: string, put: PutParams -> Option<ErrorInfo>)
    requires requestBody.Err? || requestBody.value.Null? || requestBody.value.Undefined?
    ensures Handler(requestBody, now, freshId, put).response == LambdaResponse(500, CorsHeaders, ErrorJson(FailedText))
    ensures Handler(requestBody, now, freshId, put).attempted == []
  {
  }
}

=== FILE: routes.dfy ===
/** What the two Next.js route handlers share: their responses, the
    per-request inputs they draw from the runtime, and the field checks. */
module Routes {
  import opened Js
  import opened ErrorHandler
  import opened Dynamo

  /** A route's JSON response: a 400 with an error text, a success carrying
      the message, or a 500 with a classified error body. */
  datatype RouteResponse =
    | BadRequest(error: string)
    | Sent(message: ChatMessage)
    | Failed(body: ErrorBody)

  /** HTTP status of a response (`NextResponse.json` defaults to 200). */
  function Status(r: RouteResponse): (code: int)
    ensures code in {200, 400, 500}
    ensures code == 200 <==> r.Sent?
  {
    match r
    case BadRequest(_) => 400
    case Sent(_) => 200
    case Failed(_) => 500
  }

  /** A response, and the items the handler handed to the store (in order). */
  datatype RouteOutcome = RouteOutcome(response: RouteResponse, attempted: seq<ChatMessage>)

  /** The runtime's contribution to one request: `uuidv4()` and `Date.now()`. */
  datatype Env = Env(freshId: string, now: int)

  /** Passes `!v || typeof v !== 'string'`: a non-empty string. */
  predicate NonEmptyString(v: JsValue) {
    Truthy(v) && IsString(v)
  }

  /** Passes `!v || typeof v !== 'string' || v.trim().length === 0`. */
  predicate NonBlankString(v: JsValue) {
    Truthy(v) && IsString(v) && |Trim(v.s)| != 0
  }

  /** The trim guard rejects exactly the strings made only of whitespace
      (the empty string included). */
  lemma NonBlankIffSomeVisibleChar(v: JsValue)
    ensures NonBlankString(v) <==> v.Str? && exists i :: 0 <= i < |v.s| && !IsWhitespace(v.s[i])
  {
    if v.Str? {
      TrimBlankIffAllWhitespace(v.s);
    }
  }
}

=== FILE: send_message_route.dfy ===
/** POST /api/messages/send-message (app/api/messages/send-message/route.ts):
    ordered field checks, message construction, persist, respond. */
module SendMessageRoute {
  import opened Wrappers
  import opened Js
  import opened ErrorHandler
  import opened Dynamo
  import opened Routes

  const InvalidConversationText := "Invalid conversationId"
  const InvalidSenderText := "Invalid sender"
  const EmptyMessageText := "Message cannot be empty"
  const SendFailedText := "Failed to send message"

  /** The handler's own catch block: the same if / else-if chain as
      handleError, written inline with "Failed to send message" as default. */
  function SendFailure(e: ErrorInfo): (body: ErrorBody)
    ensures body.details == e.message
  {
    var errorMessage :=
      if e.name == Str("CredentialsProviderError") then "AWS credentials not found or invalid"
      else if e.name == Str("ResourceNotFoundException") then "DynamoDB table not found"
      else if e.code == Str("ENOTFOUND") then "Cannot connect to DynamoDB endpoint: " + Render(e.hostname)
      else SendFailedText;
    ErrorBody(errorMessage, e.message)
  }

  /** The inline chain classifies exactly as handleError does. */
  lemma SendFailureIsHandleError(e: ErrorInfo)
    ensures SendFailure(e) == HandleError(e, SendFailedText)
    ensures SendFailure(e).error == FirstMatch(Rules, e, SendFailedText)
  {
    HandleErrorIsFirstMatch(e, SendFailedText);
  }

  /** The message a valid request creates. */
  function NewMessage(env: Env, conversationId: string, sender: string, message: string): ChatMessage {
    ChatMessage(env.freshId, conversationId, sender, message, NumTs(env.now))
  }

  /** POST(request): `request` is what `request.json()` yields or throws. */
  function Post(request: Result<JsValue, ErrorInfo>, env: Env, store: Store, dates: Dates): (r: RouteOutcome)
    ensures |r.attempted| <= 1
    // an unreadable body, and a null one (reading `conversationId` throws), are classified
    ensures request.Err? ==> r == RouteOutcome(Failed(HandleError(request.error, SendFailedText)), [])
    ensures request.Ok? && request.value.Null? ==>
      r == RouteOutcome(Failed(HandleError(TypeErrorReading(Null, "conversationId"), SendFailedText)), [])
    // any other body that is not an object reads `conversationId` as undefined
    ensures request.Ok? && !(request.value.Obj? || request.value.Null? || request.value.Undefined?) ==>
      r == RouteOutcome(BadRequest(InvalidConversationText), [])
    ensures r.response.BadRequest? ==> r.attempted == []
    ensures r.response.Sent? ==>
      && r.attempted == [ToItem(r.response.message, env.now, dates)]
      && store.put(PutCommand(MessagesTable(store.tableSetting), r.attempted[0])).None?
    ensures r.response.Failed? && r.attempted != [] ==>
      && store.put(PutCommand(MessagesTable(store.tableSetting), r.attempted[0])).Some?
      && r.response.body == HandleError(store.put(PutCommand(MessagesTable(store.tableSetting), r.attempted[0])).value, SendFailedText)
  {
    match request
    case Err(e) =>
      SendFailureIsHandleError(e);
      RouteOutcome(Failed(SendFailure(e)), [])
    case Ok(body) =>
      match Prop(body, "conversationId")
      case Err(e) =>
        SendFailureIsHandleError(e);
        RouteOutcome(Failed(SendFailure(e)), [])
      case Ok(conversationId) =>
        var sender := Prop(body, "sender").value;
        var message := Prop(body, "message").value;
        if !NonEmptyString(conversationId) then RouteOutcome(BadRequest(InvalidConversationText), [])
        else if !NonBlankString(sender) then RouteOutcome(BadRequest(InvalidSenderText), [])
        else if !NonBlankString(message) then RouteOutcome(BadRequest(EmptyMessageText), [])
        else
          var m := NewMessage(env, conversationId.s, sender.s, message.s);
          match AddMessage(store, dates, env.now, m)
          case Ok(_) => RouteOutcome(Sent(m), [ToItem(m, env.now, dates)])
          case Err(e) =>
            SendFailureIsHandleError(e);
            RouteOutcome(Failed(SendFailure(e)), [ToItem(m, env.now, dates)])
  }

  /** The guards run in the order conversationId, sender, message, and the
      first one that fails decides the 400. */
  lemma ValidationOrder(fields: map<string, JsValue>, env: Env, store: Store, dates: Dates)
    ensures var r := Post(Ok(Obj(fields)), env, store, dates).response;
      var cid, sender, message := Field(fields, "conversationId"), Field(fields, "sender"), Field(fields, "message");
      && (r == BadRequest(InvalidConversationText) <==> !NonEmptyString(cid))
      && (r == BadRequest(InvalidSenderText) <==> NonEmptyString(cid) && !NonBlankString(sender))
      && (r == BadRequest(EmptyMessageText) <==>
            NonEmptyString(cid) && NonBlankString(sender) && !NonBlankString(message))
      && (r.BadRequest? <==> !(NonEmptyString(cid) && NonBlankString(sender) && NonBlankString(message)))
  {
  }

  /** A valid request stores a message with the fresh id, the request's
      untrimmed fields and a numeric timestamp, and answers with that same
      message once the write succeeded; a failed write answers 500 with the
      classified store error and its message as details. */
  lemma ValidRequestPersistsThenResponds(fields: map<string, JsValue>, env: Env, store: Store, dates: Dates)
    requires NonEmptyString(Field(fields, "conversationId"))
    requires NonBlankString(Field(fields, "sender")) && NonBlankString(Field(fields, "message"))
    ensures var m := ChatMessage(env.freshId, Field(fields, "conversationId").s, Field(fields, "sender").s,
                                 Field(fields, "message").s, NumTs(env.now));
      var r := Post(Ok(Obj(fields)), env, store, dates);
      var put := store.put(PutCommand(MessagesTable(store.tableSetting), ToItem(m, env.now, dates)));
      && r.attempted == [ToItem(m, env.now, dates)]
      && (put.None? ==> r.response == Sent(m))
      && (put.Some? ==> r.response == Failed(HandleError(put.value, SendFailedText))
                        && r.response.body.details == put.value.message)
  {
    var m := ChatMessage(env.freshId, Field(fields, "conversationId").s, Field(fields, "sender").s,
                         Field(fields, "message").s, NumTs(env.now));
    var put := store.put(PutCommand(MessagesTable(store.tableSetting), ToItem(m, env.now, dates)));
    if put.Some? {
      SendFailureIsHandleError(put.value);
    }
  }

  /** The response carries the message with its numeric timestamp; the stored
      item differs from it only in carrying that instant as an ISO string. */
  lemma StoredItemMatchesResponse(request: Result<JsValue, ErrorInfo>, env: Env, store: Store, dates: Dates)
    requires IsoRoundTrips(dates)
    requires Post(request, env, store, dates).response.Sent?
    ensures var r := Post(request, env, store, dates);
      var m, item := r.response.message, r.attempted[0];
      && m.messageId == env.freshId && m.timestamp == NumTs(env.now)
      && item == m.(timestamp := StrTs(dates.toIso(env.now)))
      && SortKey(item, dates.parse) == env.now
  {
    var r := Post(request, env, store, dates);
    NormalisePreservesSortKey(r.response.message, env.now, dates);
  }

  /** A body that is not valid JSON, or is JSON `null`, answers 500 with the
      classified parse error, or the TypeError of reading `conversationId` of
      `null`, and its message as details; nothing is written. */
  lemma UnreadableBodyFails(request: Result<JsValue, ErrorInfo>, env: Env, store: Store, dates: Dates)
    requires request.Err? || request.value.Null?
    ensures var e := if request.Err? then request.error else TypeErrorReading(Null, "conversationId");
      && Post(request, env, store, dates).response == Failed(HandleError(e, SendFailedText))
      && Post(request, env, store, dates).response.body.details == e.message
    ensures Status(Post(request, env, store, dates).response) == 500
    ensures Post(request, env, store, dates).attempted == []
  {
  }
}

=== FILE: wrappers.dfy ===
/** Option and Result, the two failure-carrying datatypes the model uses for
    values that may be absent and for operations that may throw. */
module Wrappers {

  datatype Option<T> = None | Some(value: T) {
    /** The wrapped value, or `default` when there is none. */
    function GetOr(default: T): T {
      match this
      case Some(v) => v
      case None => default
    }
  }

  /** `Err` carries what a JavaScript operation would have thrown. */
  datatype Result<T, E> = Ok(value: T) | Err(error: E)
}
